=== FILE: README.md ===
# Wheel of Fortune: the wheel's state logic in Dafny

`WheelOfFortune.py` is a pygame program that draws one "wheel of fortune"
per Formula 1 team. The user types participant names onto the selected
wheel, spins it, and deletes the participant the wheel stops on. This
project models the program's state logic:

- the colour helpers `hex_to_rgb` and `is_bright_color`;
- the `Wheel` class without its drawing code:
  - the participant pool;
  - the segment-colouring pass with no two neighbouring segments alike;
  - the spin/update state machine;
  - the winner index read off the final angle;
  - the click test;
- the main loop's rules: the team table, start-up selection, click
  selection, and the add-name, spin, delete and per-frame commands.

The project also proves properties of that model.

Modules, one per file:

- `Wrappers` (`wrappers.dfy`): the `Option` type.
- `Colors` (`colors.dfy`): RGB triples, `int(_, 16)`, `hex_to_rgb` and its inverse, and the brightness test.
- `ColorAssignment` (`color_assignment.dfy`): `compute_segment_colors`, generic in the colour type.
- `Geometry` (`geometry.dfy`): the angle normalisation, the winner index, and the disc test.
- `WheelState` (`wheel.dfy`): the `Wheel` record and its transitions.
- `Text` (`text.dfy`): `str.strip()`, applied to typed names.
- `Teams` (`teams.dfy`): the `TEAM_COLORS` table.
- `Board` (`board.dfy`): the list of wheels, the selected reference, and the events of the main loop.

Modelling choices:

- **Randomness is an oracle.**
  - `random.choice` for segment `i` takes `draw(i) % |candidates|`, where `draw : nat -> nat` is a parameter.
  - `random.uniform(10, 20)` is `10 + 10u` for a parameter `u` in [0, 1), the value of `random.random()`.
- **Errors.** `random.choice` on an empty list raises `IndexError`. The model returns `None` wherever that exception would escape. The program does not catch it, so `None` means the program ends. For every palette in the team table this cannot happen (`Board.TeamBoardStaysValid`).
- **Angles and speeds** are exact reals in degrees. The source stores radians but converts back to degrees to pick the winner. The decay factor 0.98 and the stop threshold 0.1 are exact reals.
- **Invalid operations are silent no-ops**, as in the source: an out-of-range removal, a delete with no winner, and a spin while spinning.

The following behaviours are modelled as the code does them:

- **The colouring rule is linear.** Only segment `i` and segment `i - 1` are compared. The last and first segments may share a colour even though they are adjacent on the disc (`ColorAssignment.WrapAroundNotChecked`).
- **Invalid operations raise no errors.** They are the silent no-ops listed above.
- **There is no persistence.** Nothing is saved or loaded.
- **The speed is not reset at the stop.** The stopping frame leaves the decayed speed in place.
- **Edits are allowed while a wheel spins.** Adding or removing participants then is permitted, and the winner is resolved against the pool as it is at the stopping frame.
- **The winner index can go stale.** `remove_participant` does not clear `stopped_segment`, so the index can point past the end of the pool. Deleting it then removes nothing (`WheelState.StaleWinnerAfterRemove`).

## Model

| member | source | states |
|---|---|---|
| Colors.ParseHex | WheelOfFortune.py:62 | `int(field, 16)` succeeds exactly on a non-empty string of hex digits (either case), and its value is below 16^length |
| Colors.LStrip | WheelOfFortune.py:61 | `lstrip('#')` returns a suffix of the input that does not start with '#', and every dropped character is '#' |
| Colors.Slice | WheelOfFortune.py:62 | Python slicing `s[i:i+2]` clamps at the end of the string: it is the slice `s[min(i,len):min(j,len)]`, of that length |
| Colors.HexToRgb | WheelOfFortune.py:59-62 | a code parses exactly when, after the leading '#'s, at least five characters remain and the first six (or five) are hex digits; every parsed channel lies in 0..255 |
| Colors.ParseTwoHex | WheelOfFortune.py:62 | any two hex digits, in either case, parse to sixteen times the first digit's value plus the second's |
| Colors.HexToRgbChannels | WheelOfFortune.py:59-62 | for every parseable code, the red, green and blue channels are the values of digit pairs 1-2, 3-4 and 5-6 after the '#'s; with only five characters left, blue is the single fifth digit |
| Colors.FieldValue | WheelOfFortune.py:62 | a full two-character field of a parseable body has the two-digit value |
| Colors.ShortField | WheelOfFortune.py:62 | the one-character third field of a five-character body has that digit's value |
| Colors.RgbToHex | WheelOfFortune.py:59-62 | the printing `hex_to_rgb` inverts: a byte colour becomes a seven-character code starting with '#', the format of the team table |
| Colors.HexRoundTrip | WheelOfFortune.py:59-62 | `hex_to_rgb` inverts the `#RRGGBB` printing of every byte colour |
| Colors.ParseTwoDigits | WheelOfFortune.py:62 | a two-digit field printed for a byte value parses back to that value |
| Colors.BrightnessMatchesWeightedSum | WheelOfFortune.py:65-69 | the integer test `299r + 587g + 114b > 186000` holds exactly when `0.299r + 0.587g + 0.114b > 186` over exact reals |
| ColorAssignment.Without | WheelOfFortune.py:106 | the filtered list is never longer than the pool |
| ColorAssignment.WithoutMembers | WheelOfFortune.py:106 | a colour is in `[c for c in pool if c != p]` exactly when it is in the pool and differs from `p` |
| ColorAssignment.Choice | WheelOfFortune.py:102-107 | `random.choice` yields a value exactly when the list is non-empty |
| ColorAssignment.ChosenCandidate | WheelOfFortune.py:99-107 | each chosen colour is a pool colour and differs from the previous segment's colour |
| ColorAssignment.OtherColorExists | WheelOfFortune.py:105-107 | a pool with two distinct colours always leaves a candidate after filtering out any one pool colour |
| ColorAssignment.Assign | WheelOfFortune.py:94-107 | the pass completes exactly when there is nothing to colour, or the pool is non-empty and either one segment is coloured or the pool has two distinct colours; it then gives one colour per segment |
| ColorAssignment.ExtendFacts | WheelOfFortune.py:99-107 | one iteration keeps the completion condition, the length and pool membership of the newest colour |
| ColorAssignment.AssignSound | WheelOfFortune.py:94-107 | every colouring the pass produces takes its colours from the pool and never repeats the previous segment's colour |
| ColorAssignment.ExtendSound | WheelOfFortune.py:104-107 | appending the chosen colour keeps the adjacency rule |
| ColorAssignment.ComputeSegmentColors | WheelOfFortune.py:94-107 | the loop as written, returning early when `random.choice` raises, computes the same outcome as the recursive definition |
| ColorAssignment.AssignStep | WheelOfFortune.py:105-107 | one more iteration appends the chosen colour to the colours so far |
| ColorAssignment.AssignStepFails | WheelOfFortune.py:105-107 | an empty candidate list aborts the pass at that segment |
| ColorAssignment.NoneStaysNone | WheelOfFortune.py:99-107 | once the pass raises for some length, it raises for every longer pool of participants |
| ColorAssignment.DrawAt | WheelOfFortune.py:102-107 | every colour of a valid colouring sits at some position of that segment's candidate list |
| ColorAssignment.AssignPrefix | WheelOfFortune.py:99-107 | when the draws pick the given colours, the pass produces them, prefix by prefix |
| ColorAssignment.DrawsForPicks | WheelOfFortune.py:102-107 | the constructed draws pick each colour of a valid colouring in turn |
| ColorAssignment.AssignComplete | WheelOfFortune.py:94-107 | every colouring that obeys the linear rule is an outcome of the pass for some draws; with AssignSound, the rule describes the outcomes exactly |
| ColorAssignment.WrapAroundNotChecked | WheelOfFortune.py:99-107 | the last and first segments are never compared: three segments can come out first, second, first colour |
| Geometry.Mod360 | WheelOfFortune.py:150 | the floor-based modulo `x - 360*floor(x/360)` of Python's `% 360`, taken over exact reals, lands in [0, 360) |
| Geometry.Mod360Turns | WheelOfFortune.py:150 | adding whole turns leaves the normalised angle unchanged |
| Geometry.Mod360Unique | WheelOfFortune.py:150 | the normalised angle is the one value in [0, 360) that differs from the input by whole turns |
| Geometry.SegmentWidth | WheelOfFortune.py:149 | each of `n` segments has a positive angular width |
| Geometry.SelectedSegment | WheelOfFortune.py:144-152 | no winner exactly when there are no participants; otherwise an index below `n` |
| Geometry.FloorOfQuotient | WheelOfFortune.py:151 | `a // w == i` exactly when `a` lies in `[i*w, (i+1)*w)` |
| Geometry.WidthTimesCount | WheelOfFortune.py:149 | `n` segment widths add up to exactly one full turn |
| Geometry.SelectedArc | WheelOfFortune.py:149-152 | the normalised pointer angle lies inside the winner's arc |
| Geometry.SelectedGivesPointerTurn | WheelOfFortune.py:144-152 | the computed winner's arc is under the pointer |
| Geometry.PointerTurnGivesSelected | WheelOfFortune.py:144-152 | a segment whose arc is under the pointer is the computed winner |
| Geometry.ArcGivesSelected | WheelOfFortune.py:149-152 | an arc containing the pointer angle, up to whole turns, names the computed winner |
| Geometry.SameArc | WheelOfFortune.py:151 | no angle lies in two different segments' arcs |
| Geometry.InArcIsNormalised | WheelOfFortune.py:150-151 | an angle inside some segment's arc is already in [0, 360) and is the normalised angle |
| Geometry.SelectedIsUnderPointer | WheelOfFortune.py:144-152 | the computed winner is exactly the segment under the top pointer (both directions) |
| Geometry.SelectedInvariantUnderTurns | WheelOfFortune.py:144-152 | extra whole turns of the wheel never change the winner |
| Geometry.CeilSqrt | WheelOfFortune.py:91 | the distance rounded up: the least `k` with `k*k >= d2` |
| Geometry.InDiscIffDistanceWithinRadius | WheelOfFortune.py:89-92 | the squared disc test agrees with comparing the Euclidean distance with the radius, rim included |
| WheelState.NewWheel | WheelOfFortune.py:73-87 | a new wheel sits at the given centre and radius, has no participants and no segment colours, is at rest, unselected, at angle 0 with speed 0, has no winner, and is consistent |
| WheelState.Recolor | WheelOfFortune.py:94-107 | recolouring fails exactly for two or more participants on a one-colour palette; otherwise only the colours change, and they follow the rule |
| WheelState.AddParticipant | WheelOfFortune.py:109-112 | the name is appended with earlier entries unchanged; it fails exactly when a one-colour palette already has a participant; the colours are then rebuilt and consistency is kept |
| WheelState.RemoveParticipant | WheelOfFortune.py:114-118 | an out-of-range index changes nothing; otherwise exactly that position is deleted and the rest keep their order, and the colours are rebuilt |
| WheelState.DeleteStoppedSegment | WheelOfFortune.py:120-124 | it fails exactly when an in-range winner is removed from three or more participants on a one-colour palette; otherwise at most one participant is removed, exactly the winner's position when it is in range, the winner is always cleared, and only the participants, colours and winner change; no winner means no change; consistency is kept |
| WheelState.Spin | WheelOfFortune.py:126-131 | ignored while spinning; otherwise sets spinning, clears the winner and picks a speed in [10, 20); nothing else changes |
| WheelState.Update | WheelOfFortune.py:133-142 | at rest nothing changes; otherwise the angle advances by the speed and the speed decays by 0.98; the wheel stops exactly when the speed drops below 0.1, and then the winner is resolved for the final angle and pool |
| WheelState.WinnerNow | WheelOfFortune.py:144-152 | no winner exactly when the pool is empty; otherwise a participant whose arc is under the pointer |
| WheelState.UpdateSpendsBudget | WheelOfFortune.py:133-139 | every frame of a spinning wheel lowers a natural-number measure of the remaining spin |
| WheelState.SpinTerminates | WheelOfFortune.py:133-142 | left alone, a spinning wheel comes to rest with its winner resolved for the final angle |
| WheelState.AtRestStays | WheelOfFortune.py:133-135 | frames do nothing to a wheel at rest |
| WheelState.SpinBudgetBounded | WheelOfFortune.py:126-139 | a freshly spun wheel rests within 10001 frames |
| WheelState.SpinWhileSpinningIgnored | WheelOfFortune.py:126-131 | a second spin during a spin changes nothing |
| WheelState.WinnerResolvedOnce | WheelOfFortune.py:133-142 | when the decayed speed falls below 0.1, the wheel stops; after that frame, further frames change nothing, so the winner is resolved once, to the segment under the pointer |
| WheelState.DeleteTwiceIsNoop | WheelOfFortune.py:120-124 | a second delete with no new stop in between is a no-op |
| WheelState.StaleWinnerAfterRemove | WheelOfFortune.py:114-124 | removing a participant leaves the winner index alone, so it can fall out of range, and deleting it then removes nothing |
| Text.StartOf | WheelOfFortune.py:283 | the scan from the left skips only whitespace and stops at the first non-whitespace character or the end |
| Text.EndOf | WheelOfFortune.py:283 | the scan from the right skips only whitespace and stops after the last non-whitespace character, never before the start |
| Text.Strip | WheelOfFortune.py:283-284 | `name.strip()` is empty exactly when the text is all whitespace; otherwise it has no whitespace at either end; in every case it is a contiguous piece of the text, and everything dropped before and after it is whitespace |
| Text.StripDetermined | WheelOfFortune.py:283-284 | any piece of the text that has only whitespace around it and none at its ends is the stripped name, so those properties define `strip()` |
| Text.StripIdempotent | WheelOfFortune.py:283-284 | stripping the stripped name changes nothing |
| Teams.EntryUsable | WheelOfFortune.py:21-32 | a table entry printed from three byte colours, the first two different, parses back to those colours and gives a two-colour pool |
| Teams.TeamPalettesUsable | WheelOfFortune.py:21-32 | every team's three codes parse and the first two differ, so no team wheel can reach the empty `random.choice` |
| Board.TeamPaletteAt | WheelOfFortune.py:233-235 | each team's wheel gets the parsed colours of its table row, and that palette has two colours |
| Board.TeamWheels | WheelOfFortune.py:230-236 | one wheel per team, in table order: each sits at its given centre with radius 100, carries the team's name and the parsed colours of its row (a two-colour palette), and starts with no participants, no segment colours and no winner, unselected, at rest at angle 0 with speed 0, and consistent |
| Board.SelectingOne | WheelOfFortune.py:241-242 | marking one wheel among unselected ones leaves exactly that wheel selected |
| Board.StartupBoard | WheelOfFortune.py:230-242 | selecting the first of the empty, unselected start-up wheels gives a valid board with two-colour palettes and each team's name in table order |
| Board.Startup | WheelOfFortune.py:230-242 | at start-up there is one wheel per team, the first is the only one selected, and the board is valid |
| Board.Reselect | WheelOfFortune.py:273-275 | deselecting the current wheel and selecting another moves only the flags, and keeps exactly one wheel selected |
| Board.ClickFrom | WheelOfFortune.py:266-275 | the click loop changes only selection flags and keeps exactly one wheel selected |
| Board.ClickFromMissUnchanged | WheelOfFortune.py:266-267 | a loop over wheels none of which is hit changes nothing |
| Board.ReselectKeepsHits | WheelOfFortune.py:267-275 | reselection does not change which wheels a point hits |
| Board.ClickFromSelectsLastHit | WheelOfFortune.py:266-275 | the last wheel in list order that is hit ends up selected |
| Board.ClickLoopOutcome | WheelOfFortune.py:264-275 | the whole loop selects the last hit wheel, and a miss changes nothing |
| Board.Click | WheelOfFortune.py:264-275 | a left click selects the last wheel in list order whose disc holds the point, changes nothing when no disc holds it, and keeps exactly one wheel selected |
| Board.UpdateAll | WheelOfFortune.py:251-254 | a frame touches only the angle, speed, spinning flag and winner of each wheel; wheels at rest are unchanged, spinning wheels advance by their speed and slow by 0.98, and every consistent wheel stays consistent |
| Board.WithCurrentKeeps | WheelOfFortune.py:279-304 | changing only the selected wheel keeps the wheel list, the selection and validity |
| Board.UpdateAllKeeps | WheelOfFortune.py:251-254 | a frame keeps the wheel list, the selection and validity |
| Board.UsableNeverRaises | WheelOfFortune.py:279-304 | with a two-colour palette, adding a name or deleting the winner never reaches the empty `random.choice` |
| Board.Step | WheelOfFortune.py:251-304 | every event keeps the number of wheels and their palettes, keeps the selection reference in range, and keeps the board valid; on a board of two-colour palettes no event raises |
| Board.Run | WheelOfFortune.py:246-304 | the same holds for every run of events |
| Board.TeamBoardStaysValid | WheelOfFortune.py:230-304 | from start-up, any run of events keeps exactly one wheel selected and every wheel consistent and never raises; so the colour-length repair in `draw` never fires |
| Board.AddNameAppendsStripped | WheelOfFortune.py:279-285 | the add-name button appends the stripped text to the selected wheel only, and does nothing when the text is blank |
| Board.SpinButtonSpinsSelected | WheelOfFortune.py:286-288 | the spin button spins the selected wheel only |
| Board.FrameUpdatesEveryWheel | WheelOfFortune.py:251-254 | a frame advances every wheel and keeps the selection |
| Board.OtherButtonsIgnored | WheelOfFortune.py:264 | only the left button selects; other buttons change nothing |
| Board.LeftClickSelects | WheelOfFortune.py:264-275 | a left-button press is exactly the click selection |
| Board.DeleteButtonDeletesSelected | WheelOfFortune.py:300-304 | the delete button raises exactly when deleting the selected wheel's winner does; otherwise it replaces that wheel by the deleted one and leaves the other wheels and the selection alone |

## Left out

- Rendering is not modelled: `draw`, `draw_arrow`, fonts, the highlight, arc polygons, pygame and pygame_gui. It is all foreign I/O.
- Zoom is not modelled. It changes only how the wheels are drawn.
- The frame clock, `print` and the QUIT event are not modelled. They have no effect on the wheels' state.
- The delete button's lifecycle is not modelled (created at lines 306-312, killed at 269-271, 291-292 and 303-304). `DeletePressed` models a press while the button is live. It then deletes the selected wheel's winner, or does nothing when there is none.
  - Not modelled: the spin button kills the widget without clearing the reference (lines 291-292). This can leave no live delete button until any wheel, the selected one included, is clicked (lines 267-271).
  - `DeletePressed` therefore over-approximates: `Board.Step` accepts it in every state, including after the spin button has killed the widget, when the real program could not receive that press.
- Float arithmetic is not modelled. Angles are exact reals in degrees, and the 0.98 decay and 0.1 threshold are exact.
  - The radians/degrees round trip is dropped.
  - Python's float `% 360` can round up to 360.0 for tiny negative inputs. The source's final `% num_segments` exists for that case, and the model keeps it.
- WheelState.SpinBudgetBounded: bounds the number of frames a spin takes (10001) rather than giving the exact closed-form count, which depends on float rounding.
- WheelState.Spin: states a speed in [10, 20). Float rounding in `random.uniform` can return exactly 20; the model cannot.
- Colors.ParseHex: models `int(_, 16)` on ASCII hex digits only. Signs, surrounding whitespace, underscores, a `0x` prefix and non-ASCII Unicode decimal digits (which Python's `int` also accepts) are not modelled. None of them occurs in the team table.
- Colors.IsBrightColor: `is_bright_color` (line 68) sums float products; the model compares `299r + 587g + 114b > 186000` exactly. The two agree except possibly on the 81 byte colours that lie exactly on `299r + 587g + 114b = 186000`, such as (33, 255, 232), where the float sum may round to either side of 186.
- Geometry.InDiscIffDistanceWithinRadius: compares the exact Euclidean distance. Float rounding of `math.sqrt` for huge coordinates is not modelled.
- The grid layout arithmetic (lines 224-232) is not modelled. Wheel centres are a parameter of `Board.Startup`.
- `random` itself is not modelled. Draws are parameters.

=== FILE: board.dfy ===
/** The main loop's state logic: the list of wheels with exactly one
    selected, mouse-click selection, and the add-name, spin, delete and
    per-frame update commands. Widgets, zoom and drawing are not modelled. */
module Board {
  import opened Wrappers
  import opened ColorAssignment
  import opened WheelState
  import opened Teams
  import opened Text

  /** `wheels` with `current` standing for the `selected_wheel` reference. */
  datatype Board = Board(wheels: seq<Wheel>, current: nat)

  /** The selected reference points into the list and it is the one wheel
      whose `selected` flag is set. */
  predicate SingleSelection(b: Board)
  {
    && b.current < |b.wheels|
    && forall i :: 0 <= i < |b.wheels| ==> (b.wheels[i].selected <==> i == b.current)
  }

  /** Single selection and every wheel consistent. */
  predicate Valid(b: Board)
  {
    SingleSelection(b) && forall i :: 0 <= i < |b.wheels| ==> Consistent(b.wheels[i])
  }

  /** Every wheel's palette offers two colours. */
  predicate AllUsable(b: Board)
  {
    forall i :: 0 <= i < |b.wheels| ==> Usable(b.wheels[i].palette)
  }

  /** The parsed palette of team `i`. */
  function TeamPaletteAt(i: nat): (p: Palette)
    requires i < |TeamColors|
    ensures Some(p) == TeamPalette(TeamColors[i]) && Usable(p)
  {
    TeamPalettesUsable();
    assert TeamUsable(i);
    TeamPalette(TeamColors[i]).value
  }

  /** One wheel per team, in table order, built at the given centres with
      radius 100. */
  function TeamWheels(centres: seq<(int, int)>): (ws: seq<Wheel>)
    requires |centres| == |TeamColors|
    ensures |ws| == |TeamColors|
    ensures forall i :: 0 <= i < |ws| ==>
              && ws[i].x == centres[i].0 && ws[i].y == centres[i].1 && ws[i].radius == 100
              && ws[i].teamName == TeamColors[i].name
              && Some(ws[i].palette) == TeamPalette(TeamColors[i]) && Usable(ws[i].palette)
              && ws[i].participants == [] && ws[i].segmentColors == []
              && !ws[i].selected && !ws[i].spinning && ws[i].stoppedSegment.None?
              && ws[i].rotation == 0.0 && ws[i].spinSpeed == 0.0
              && Consistent(ws[i])
  {
    seq(|centres|, i requires 0 <= i < |centres| =>
      NewWheel(centres[i].0, centres[i].1, 100, TeamColors[i].name, TeamPaletteAt(i)))
  }

  /** Setting the flag of one wheel among unselected ones gives a single selection. */
  lemma SelectingOne(ws: seq<Wheel>, i: nat)
    requires i < |ws|
    requires forall k :: 0 <= k < |ws| ==> Consistent(ws[k]) && !ws[k].selected
    ensures var b := Board(ws[i := ws[i].(selected := true)], i);
            && Valid(b)
            && |b.wheels| == |ws|
            && forall k :: 0 <= k < |ws| ==>
                 && b.wheels[k] == ws[k].(selected := k == i)
                 && b.wheels[k].participants == ws[k].participants
                 && b.wheels[k].teamName == ws[k].teamName
                 && b.wheels[k].palette == ws[k].palette
  {
  }

  /** Program start: build the team wheels and mark the first one selected. */
  function Startup(centres: seq<(int, int)>): (b: Board)
    requires |centres| == |TeamColors|
    ensures Valid(b) && AllUsable(b) && b.current == 0
    ensures |b.wheels| == |TeamColors|
    ensures forall i :: 0 <= i < |b.wheels| ==>
              b.wheels[i].participants == [] && b.wheels[i].teamName == TeamColors[i].name
  {
    var ws := TeamWheels(centres);
    StartupBoard(ws);
    Board(ws[0 := ws[0].(selected := true)], 0)
  }

  lemma StartupBoard(ws: seq<Wheel>)
    requires |ws| == |TeamColors|
    requires forall i :: 0 <= i < |ws| ==>
               && Consistent(ws[i]) && !ws[i].selected && Usable(ws[i].palette)
               && ws[i].participants == [] && ws[i].teamName == TeamColors[i].name
    ensures var b := Board(ws[0 := ws[0].(selected := true)], 0);
            && Valid(b) && AllUsable(b) && |b.wheels| == |TeamColors|
            && forall i :: 0 <= i < |b.wheels| ==>
                 b.wheels[i].participants == [] && b.wheels[i].teamName == TeamColors[i].name
  {
    SelectingOne(ws, 0);
  }

  /** Deselect the current wheel, then select wheel `i` and point at it. */
  function Reselect(b: Board, i: nat): (r: Board)
    requires b.current < |b.wheels| && i < |b.wheels|
    ensures r.current == i && |r.wheels| == |b.wheels|
    ensures forall j :: 0 <= j < |b.wheels| ==>
              r.wheels[j] == b.wheels[j].(selected := r.wheels[j].selected)
    ensures SingleSelection(b) ==> SingleSelection(r)
  {
    var ws := b.wheels[b.current := b.wheels[b.current].(selected := false)];
    Board(ws[i := ws[i].(selected := true)], i)
  }

  /** Wheel `j` is hit and no later wheel in list order is. */
  predicate LastHitFrom(b: Board, px: int, py: int, j: nat)
  {
    && j < |b.wheels|
    && IsClicked(b.wheels[j], px, py)
    && forall k :: j < k < |b.wheels| ==> !IsClicked(b.wheels[k], px, py)
  }

  /** The click loop from wheel `i` on: every hit wheel in turn becomes the
      selected one. */
  function ClickFrom(b: Board, px: int, py: int, i: nat): (r: Board)
    requires b.current < |b.wheels| && i <= |b.wheels|
    ensures r.current < |r.wheels| && |r.wheels| == |b.wheels|
    ensures forall j :: 0 <= j < |b.wheels| ==>
              r.wheels[j] == b.wheels[j].(selected := r.wheels[j].selected)
    ensures SingleSelection(b) ==> SingleSelection(r)
    decreases |b.wheels| - i
  {
    if i == |b.wheels| then b
    else if IsClicked(b.wheels[i], px, py) then ClickFrom(Reselect(b, i), px, py, i + 1)
    else ClickFrom(b, px, py, i + 1)
  }

  /** With no hit from wheel `i` on, the board is unchanged. */
  lemma {:induction false} ClickFromMissUnchanged(b: Board, px: int, py: int, i: nat)
    requires b.current < |b.wheels| && i <= |b.wheels|
    requires forall k :: i <= k < |b.wheels| ==> !IsClicked(b.wheels[k], px, py)
    ensures ClickFrom(b, px, py, i) == b
    decreases |b.wheels| - i
  {
    if i < |b.wheels| {
      ClickFromMissUnchanged(b, px, py, i + 1);
    }
  }

  /** Reselecting only moves flags, so it does not change which wheels a point hits. */
  lemma ReselectKeepsHits(b: Board, i: nat, px: int, py: int)
    requires b.current < |b.wheels| && i < |b.wheels|
    ensures forall k :: 0 <= k < |b.wheels| ==>
              (IsClicked(Reselect(b, i).wheels[k], px, py) <==> IsClicked(b.wheels[k], px, py))
  {
  }

  /** From wheel `i` on, the last hit wheel ends up selected. */
  lemma {:induction false} ClickFromSelectsLastHit(b: Board, px: int, py: int, i: nat, j: nat)
    requires b.current < |b.wheels| && i <= j && LastHitFrom(b, px, py, j)
    ensures ClickFrom(b, px, py, i).current == j
    decreases |b.wheels| - i
  {
    if IsClicked(b.wheels[i], px, py) {
      var b' := Reselect(b, i);
      ReselectKeepsHits(b, i, px, py);
      if i == j {
        ClickFromMissUnchanged(b', px, py, i + 1);
      } else {
        ClickFromSelectsLastHit(b', px, py, i + 1, j);
      }
    } else {
      ClickFromSelectsLastHit(b, px, py, i + 1, j);
    }
  }

  lemma ClickLoopOutcome(b: Board, px: int, py: int)
    requires b.current < |b.wheels|
    ensures (forall k :: 0 <= k < |b.wheels| ==> !IsClicked(b.wheels[k], px, py)) ==>
              ClickFrom(b, px, py, 0) == b
    ensures forall j :: LastHitFrom(b, px, py, j) ==> ClickFrom(b, px, py, 0).current == j
  {
    if forall k :: 0 <= k < |b.wheels| ==> !IsClicked(b.wheels[k], px, py) {
      ClickFromMissUnchanged(b, px, py, 0);
    }
    forall j | LastHitFrom(b, px, py, j) ensures ClickFrom(b, px, py, 0).current == j {
      ClickFromSelectsLastHit(b, px, py, 0, j);
    }
  }

  /** A left click at (px, py): the last wheel in list order whose disc
      contains the point ends up selected; a click on no wheel changes nothing. */
  function Click(b: Board, px: int, py: int): (r: Board)
    requires b.current < |b.wheels|
    ensures SingleSelection(b) ==> SingleSelection(r)
    ensures (forall k :: 0 <= k < |b.wheels| ==> !IsClicked(b.wheels[k], px, py)) ==> r == b
    ensures forall j :: LastHitFrom(b, px, py, j) ==> r.current == j
    ensures |r.wheels| == |b.wheels|
    ensures forall j :: 0 <= j < |b.wheels| ==>
              r.wheels[j] == b.wheels[j].(selected := r.wheels[j].selected)
  {
    ClickLoopOutcome(b, px, py);
    ClickFrom(b, px, py, 0)
  }

  /** The events the main loop reacts to. Colour draws and the spin draw
      stand for the calls into `random` the command leads to. */
  datatype Command =
    | MouseDown(button: int, px: int, py: int)
    | AddNamePressed(text: string, draw: Draws)
    | SpinPressed(u: UnitDraw)
    | DeletePressed(draw: Draws)
    | Frame

  /** Replace the selected wheel. */
  function WithCurrent(b: Board, w: Wheel): (r: Board)
    requires b.current < |b.wheels|
  {
    b.(wheels := b.wheels[b.current := w])
  }

  /** Every wheel advanced by one `update`. */
  function UpdateAll(ws: seq<Wheel>): (r: seq<Wheel>)
    ensures |r| == |ws|
    ensures forall i :: 0 <= i < |ws| ==>
              r[i] == ws[i].(rotation := r[i].rotation, spinSpeed := r[i].spinSpeed,
                             spinning := r[i].spinning, stoppedSegment := r[i].stoppedSegment)
    ensures forall i :: 0 <= i < |ws| && !ws[i].spinning ==> r[i] == ws[i]
    ensures forall i :: 0 <= i < |ws| && ws[i].spinning ==>
              r[i].rotation == ws[i].rotation + ws[i].spinSpeed && r[i].spinSpeed == ws[i].spinSpeed * Decay
    ensures forall i :: 0 <= i < |ws| && Consistent(ws[i]) ==> Consistent(r[i])
  {
    seq(|ws|, i requires 0 <= i < |ws| => Update(ws[i]))
  }

  /** Wheels keep their count, order, identity and palettes, and the
      selected reference stays in the list. */
  predicate SameWheels(b: Board, r: Board)
  {
    && |r.wheels| == |b.wheels| && r.current < |r.wheels|
    && forall i :: 0 <= i < |b.wheels| ==>
         r.wheels[i].palette == b.wheels[i].palette && r.wheels[i].teamName == b.wheels[i].teamName
  }

  /** Replacing the selected wheel by a version of itself with the same
      flag, palette and name keeps the board's shape and validity. */
  lemma WithCurrentKeeps(b: Board, w: Wheel)
    requires b.current < |b.wheels|
    requires w.selected == b.wheels[b.current].selected
    requires w.palette == b.wheels[b.current].palette
    requires w.teamName == b.wheels[b.current].teamName
    ensures SameWheels(b, WithCurrent(b, w))
    ensures Valid(b) && Consistent(w) ==> Valid(WithCurrent(b, w))
  {
  }

  lemma UpdateAllKeeps(b: Board)
    requires b.current < |b.wheels|
    ensures SameWheels(b, b.(wheels := UpdateAll(b.wheels)))
    ensures Valid(b) ==> Valid(b.(wheels := UpdateAll(b.wheels)))
  {
  }

  lemma UsableNeverRaises(w: Wheel, name: string, draw: Draws)
    requires Usable(w.palette)
    ensures AddParticipant(w, name, draw).Some?
    ensures DeleteStoppedSegment(w, draw).Some?
  {
  }

  /** One event of the main loop. None when `random.choice` raised. */
  function Step(b: Board, cmd: Command): (r: Option<Board>)
    requires b.current < |b.wheels|
    ensures r.Some? ==> SameWheels(b, r.value)
    ensures AllUsable(b) ==> r.Some?
    ensures Valid(b) && r.Some? ==> Valid(r.value)
  {
    var w := b.wheels[b.current];
    match cmd
    case MouseDown(button, px, py) =>
      if button == 1 then Some(Click(b, px, py)) else Some(b)
    case AddNamePressed(text, draw) =>
      var name := Strip(text);
      if name == [] then Some(b)
      else
        (match AddParticipant(w, name, draw)
         case None =>
           assert !AllUsable(b) by {
             if AllUsable(b) { UsableNeverRaises(w, name, draw); }
           }
           None
         case Some(w') =>
           WithCurrentKeeps(b, w');
           Some(WithCurrent(b, w')))
    case SpinPressed(u) =>
      WithCurrentKeeps(b, Spin(w, u));
      Some(WithCurrent(b, Spin(w, u)))
    case DeletePressed(draw) =>
      (match DeleteStoppedSegment(w, draw)
       case None =>
         assert !AllUsable(b) by {
           if AllUsable(b) { UsableNeverRaises(w, [], draw); }
         }
         None
       case Some(w') =>
         WithCurrentKeeps(b, w');
         Some(WithCurrent(b, w')))
    case Frame =>
      UpdateAllKeeps(b);
      Some(b.(wheels := UpdateAll(b.wheels)))
  }

  /** A run of events from a board; None once an event raised. */
  function Run(b: Board, cmds: seq<Command>): (r: Option<Board>)
    requires b.current < |b.wheels|
    ensures r.Some? ==> SameWheels(b, r.value)
    ensures AllUsable(b) ==> r.Some?
    ensures Valid(b) && r.Some? ==> Valid(r.value)
    decreases |cmds|
  {
    if cmds == [] then Some(b)
    else
      match Step(b, cmds[0])
      case None => None
      case Some(b') => Run(b', cmds[1..])
  }

  /** Whatever the user does after start-up, the program never reaches the
      empty `random.choice`, exactly one wheel stays selected, and every
      wheel keeps its colours consistent and its winner index in range. */
  lemma TeamBoardStaysValid(centres: seq<(int, int)>, cmds: seq<Command>)
    requires |centres| == |TeamColors|
    ensures Run(Startup(centres), cmds).Some?
    ensures Valid(Run(Startup(centres), cmds).value)
  {
  }

  /** The add-name button appends the stripped text to the selected wheel,
      and does nothing when the text is blank. */
  lemma AddNameAppendsStripped(b: Board, text: string, draw: Draws)
    requires b.current < |b.wheels|
    ensures Strip(text) == [] ==> Step(b, AddNamePressed(text, draw)) == Some(b)
    ensures Step(b, AddNamePressed(text, draw)).Some? && Strip(text) != [] ==>
              var r := Step(b, AddNamePressed(text, draw)).value;
              && r.current == b.current
              && r.wheels[b.current].participants == b.wheels[b.current].participants + [Strip(text)]
              && forall i :: 0 <= i < |b.wheels| && i != b.current ==> r.wheels[i] == b.wheels[i]
  {
    var name := Strip(text);
    var added := AddParticipant(b.wheels[b.current], name, draw);
    if name != [] && added.Some? {
      assert Step(b, AddNamePressed(text, draw)) == Some(WithCurrent(b, added.value));
    }
  }

  /** The spin button arms only the selected wheel. */
  lemma SpinButtonSpinsSelected(b: Board, u: UnitDraw)
    requires b.current < |b.wheels|
    ensures var r := Step(b, SpinPressed(u)).value;
            && r.wheels[b.current] == Spin(b.wheels[b.current], u)
            && forall i :: 0 <= i < |b.wheels| && i != b.current ==> r.wheels[i] == b.wheels[i]
  {
  }

  /** A frame advances every wheel, selected or not, and keeps the selection. */
  lemma FrameUpdatesEveryWheel(b: Board)
    requires b.current < |b.wheels|
    ensures var r := Step(b, Frame).value;
            && r.current == b.current
            && forall i :: 0 <= i < |b.wheels| ==> r.wheels[i] == Update(b.wheels[i])
  {
  }

  /** Buttons other than the left one do not change the selection. */
  lemma OtherButtonsIgnored(b: Board, button: int, px: int, py: int)
    requires b.current < |b.wheels| && button != 1
    ensures Step(b, MouseDown(button, px, py)) == Some(b)
  {
  }

  /** The delete button deletes the selected wheel's winner and touches no
      other wheel; it fails only where `DeleteStoppedSegment` does. */
  lemma DeleteButtonDeletesSelected(b: Board, draw: Draws)
    requires b.current < |b.wheels|
    ensures Step(b, DeletePressed(draw)).None? <==> DeleteStoppedSegment(b.wheels[b.current], draw).None?
    ensures Step(b, DeletePressed(draw)).Some? ==>
              var r := Step(b, DeletePressed(draw)).value;
              && r.current == b.current
              && r.wheels[b.current] == DeleteStoppedSegment(b.wheels[b.current], draw).value
              && forall i :: 0 <= i < |b.wheels| && i != b.current ==> r.wheels[i] == b.wheels[i]
  {
    var deleted := DeleteStoppedSegment(b.wheels[b.current], draw);
    if deleted.Some? {
      assert Step(b, DeletePressed(draw)) == Some(WithCurrent(b, deleted.value));
    }
  }

  /** A left-button press is exactly the click selection. */
  lemma LeftClickSelects(b: Board, px: int, py: int)
    requires b.current < |b.wheels|
    ensures Step(b, MouseDown(1, px, py)) == Some(Click(b, px, py))
  {
  }
}

=== FILE: color_assignment.dfy ===
/** Segment colour assignment (`compute_segment_colors`): a greedy left-to-right
    pass that gives segment 0 any pool colour and every later segment a colour
    different from the one just before it. Randomness is an oracle: `draw(i)`
    is the value `random.choice` consumed for segment `i`, read modulo the
    number of candidates, so every possible choice is some draw. */
module ColorAssignment {
  import opened Wrappers

  type Draws = nat -> nat

  /** `[c for c in pool if c != p]`, keeping order and duplicates. */
  function Without<C(==)>(pool: seq<C>, p: C): (cs: seq<C>)
    ensures |cs| <= |pool|
  {
    if pool == [] then []
    else if pool[0] == p then Without(pool[1..], p)
    else [pool[0]] + Without(pool[1..], p)
  }

  /** The filter keeps exactly the pool colours other than the excluded one. */
  lemma {:induction false} WithoutMembers<C>(pool: seq<C>, p: C, x: C)
    ensures x in Without(pool, p) <==> x in pool && x != p
  {
    if pool != [] {
      WithoutMembers(pool[1..], p, x);
      assert pool == [pool[0]] + pool[1..];
    }
  }

  /** The colours segment `i` may take: the whole pool for the first segment,
      else the pool minus the previous segment's colour. */
  function Candidates<C(==)>(pool: seq<C>, prev: Option<C>): seq<C>
  {
    match prev
    case None => pool
    case Some(p) => Without(pool, p)
  }

  /** `random.choice(cands)`; an empty list raises IndexError (None). */
  function Choice<C>(cands: seq<C>, d: nat): (r: Option<C>)
    ensures r.Some? <==> cands != []
  {
    if cands == [] then None else Some(cands[d % |cands|])
  }

  /** A chosen candidate is a pool colour different from the previous one. */
  lemma ChosenCandidate<C>(pool: seq<C>, prev: Option<C>, d: nat)
    requires Choice(Candidates(pool, prev), d).Some?
    ensures Choice(Candidates(pool, prev), d).value in pool
    ensures prev != Some(Choice(Candidates(pool, prev), d).value)
  {
    var cands := Candidates(pool, prev);
    var c := Choice(cands, d).value;
    assert c in cands;
    if prev.Some? {
      WithoutMembers(pool, prev.value, c);
    }
  }

  /** Every entry of the pool is the same colour (or the pool is empty). */
  predicate Monochrome<C(==)>(pool: seq<C>)
  {
    forall i :: 0 <= i < |pool| ==> pool[i] == pool[0]
  }

  /** The colouring rule as the source enforces it: every colour comes from the
      pool and no segment repeats its predecessor's colour. The pair (last,
      first) is deliberately not constrained. */
  predicate LinearlyDistinct<C(==)>(pool: seq<C>, cs: seq<C>)
  {
    && (forall i :: 0 <= i < |cs| ==> cs[i] in pool)
    && (forall i :: 1 <= i < |cs| ==> cs[i] != cs[i - 1])
  }

  /** When the pass completes: nothing to colour, or a non-empty pool that
      either colours one segment or offers a second colour. */
  predicate Completes<C(==)>(pool: seq<C>, n: nat)
  {
    n == 0 || (pool != [] && (n == 1 || !Monochrome(pool)))
  }

  function Last<C>(s: seq<C>): Option<C>
  {
    if s == [] then None else Some(s[|s| - 1])
  }

  lemma OtherColorExists<C>(pool: seq<C>, p: C)
    requires pool != [] && !Monochrome(pool) && p in pool
    ensures Without(pool, p) != []
  {
    var i :| 0 <= i < |pool| && pool[i] != pool[0];
    if p == pool[0] {
      WithoutMembers(pool, p, pool[i]);
    } else {
      WithoutMembers(pool, p, pool[0]);
    }
  }

  /** One step of the pass: colour the next segment after `prefix`. */
  function Extend<C(==)>(pool: seq<C>, prefix: Option<seq<C>>, d: nat): Option<seq<C>>
  {
    match prefix
    case None => None
    case Some(p) =>
      match Choice(Candidates(pool, Last(p)), d)
      case None => None
      case Some(c) => Some(p + [c])
  }

  /** The colours for `n` segments, or None when `random.choice` raises. */
  function Assign<C(==)>(pool: seq<C>, n: nat, draw: Draws): (r: Option<seq<C>>)
    ensures r.Some? <==> Completes(pool, n)
    ensures r.Some? ==> |r.value| == n
    ensures r.Some? && n > 0 ==> r.value[n - 1] in pool
    decreases n
  {
    if n == 0 then Some([])
    else
      var prefix := Assign(pool, n - 1, draw);
      ExtendFacts(pool, n - 1, prefix, draw(n - 1));
      Extend(pool, prefix, draw(n - 1))
  }

  lemma ExtendFacts<C>(pool: seq<C>, k: nat, prefix: Option<seq<C>>, d: nat)
    requires prefix.Some? <==> Completes(pool, k)
    requires prefix.Some? ==> |prefix.value| == k
    requires prefix.Some? && k > 0 ==> prefix.value[k - 1] in pool
    ensures Extend(pool, prefix, d).Some? <==> Completes(pool, k + 1)
    ensures Extend(pool, prefix, d).Some? ==> |Extend(pool, prefix, d).value| == k + 1
    ensures Extend(pool, prefix, d).Some? ==> Extend(pool, prefix, d).value[k] in pool
  {
    if prefix.Some? {
      var cands := Candidates(pool, Last(prefix.value));
      if k >= 1 && pool != [] && !Monochrome(pool) {
        OtherColorExists(pool, prefix.value[k - 1]);
      }
      if Choice(cands, d).Some? {
        ChosenCandidate(pool, Last(prefix.value), d);
      }
    }
  }

  /** Every colouring the pass produces obeys the linear adjacency rule. */
  lemma {:induction false} AssignSound<C>(pool: seq<C>, n: nat, draw: Draws)
    requires Assign(pool, n, draw).Some?
    ensures LinearlyDistinct(pool, Assign(pool, n, draw).value)
  {
    if n > 0 {
      var prefix := Assign(pool, n - 1, draw);
      var d := draw(n - 1);
      assert Assign(pool, n, draw) == Extend(pool, prefix, d);
      AssignSound(pool, n - 1, draw);
      ExtendSound(pool, prefix.value, d);
    }
  }

  lemma ExtendSound<C>(pool: seq<C>, prefix: seq<C>, d: nat)
    requires LinearlyDistinct(pool, prefix)
    requires Extend(pool, Some(prefix), d).Some?
    ensures LinearlyDistinct(pool, Extend(pool, Some(prefix), d).value)
  {
    var cs := Extend(pool, Some(prefix), d).value;
    ChosenCandidate(pool, Last(prefix), d);
    var c := Choice(Candidates(pool, Last(prefix)), d).value;
    assert cs == prefix + [c];
    assert |prefix| > 0 ==> Last(prefix) == Some(cs[|prefix| - 1]);
  }

  /** `compute_segment_colors` as the source's loop writes it. */
  method ComputeSegmentColors<C(==)>(pool: seq<C>, n: nat, draw: Draws)
    returns (r: Option<seq<C>>)
    ensures r == Assign(pool, n, draw)
  {
    var colors: seq<C> := [];
    var i := 0;
    while i < n
      invariant 0 <= i <= n && |colors| == i
      invariant Assign(pool, i, draw) == Some(colors)
    {
      var available := if i == 0 then pool else Without(pool, colors[i - 1]);
      assert available == Candidates(pool, Last(colors));
      var c := Choice(available, draw(i));
      if c.None? {
        AssignStepFails(pool, i, draw, colors);
        NoneStaysNone(pool, i + 1, n, draw);
        return None;
      }
      AssignStep(pool, i, draw, colors, c.value);
      colors := colors + [c.value];
      i := i + 1;
    }
    r := Some(colors);
  }

  /** One more iteration of the pass appends the colour chosen for the next segment. */
  lemma AssignStep<C>(pool: seq<C>, k: nat, draw: Draws, prefix: seq<C>, c: C)
    requires Assign(pool, k, draw) == Some(prefix)
    requires Choice(Candidates(pool, Last(prefix)), draw(k)) == Some(c)
    ensures Assign(pool, k + 1, draw) == Some(prefix + [c])
  {
  }

  lemma AssignStepFails<C>(pool: seq<C>, k: nat, draw: Draws, prefix: seq<C>)
    requires Assign(pool, k, draw) == Some(prefix)
    requires Choice(Candidates(pool, Last(prefix)), draw(k)).None?
    ensures Assign(pool, k + 1, draw).None?
  {
  }

  /** Once `random.choice` raises for segment `k - 1`, it raises for every longer wheel. */
  lemma NoneStaysNone<C>(pool: seq<C>, k: nat, n: nat, draw: Draws)
    requires k <= n && Assign(pool, k, draw).None?
    ensures Assign(pool, n, draw).None?
  {
  }

  /** The draw that makes the pass pick `cs[i]` at every step. */
  function DrawsFor<C(==)>(pool: seq<C>, cs: seq<C>): Draws
    requires LinearlyDistinct(pool, cs)
  {
    (i: nat) => if i < |cs| then DrawAt(pool, cs, i) else 0
  }

  /** Position of `cs[i]` among the candidates for segment `i`. */
  function DrawAt<C(==)>(pool: seq<C>, cs: seq<C>, i: nat): (k: nat)
    requires LinearlyDistinct(pool, cs) && i < |cs|
    ensures k < |Candidates(pool, Last(cs[..i]))|
    ensures Candidates(pool, Last(cs[..i]))[k] == cs[i]
  {
    if i == 0 then
      assert cs[i] in pool;
      IndexOf(pool, cs[i])
    else
      var prev := cs[i - 1];
      assert Last(cs[..i]) == Some(prev);
      assert cs[i] in pool && cs[i] != prev;
      WithoutMembers(pool, prev, cs[i]);
      IndexOf(Without(pool, prev), cs[i])
  }

  function IndexOf<C(==)>(s: seq<C>, x: C): (k: nat)
    requires x in s
    ensures k < |s| && s[k] == x
  {
    if s[0] == x then 0 else 1 + IndexOf(s[1..], x)
  }

  /** `draw` makes the pass choose `cs[i]` for every segment `i`. */
  predicate Picks<C(==)>(pool: seq<C>, cs: seq<C>, draw: Draws)
  {
    forall i :: 0 <= i < |cs| ==> Choice(Candidates(pool, Last(cs[..i])), draw(i)) == Some(cs[i])
  }

  lemma {:induction false} AssignPrefix<C>(pool: seq<C>, cs: seq<C>, draw: Draws, k: nat)
    requires Picks(pool, cs, draw) && k <= |cs|
    ensures Assign(pool, k, draw) == Some(cs[..k])
  {
    if k > 0 {
      AssignPrefix(pool, cs, draw, k - 1);
      var prefix := cs[..k - 1];
      assert Choice(Candidates(pool, Last(prefix)), draw(k - 1)) == Some(cs[k - 1]);
      AssignStep(pool, k - 1, draw, prefix, cs[k - 1]);
      assert prefix + [cs[k - 1]] == cs[..k];
    }
  }

  lemma DrawsForPicks<C>(pool: seq<C>, cs: seq<C>)
    requires LinearlyDistinct(pool, cs)
    ensures Picks(pool, cs, DrawsFor(pool, cs))
  {
    var draw := DrawsFor(pool, cs);
    forall i | 0 <= i < |cs|
      ensures Choice(Candidates(pool, Last(cs[..i])), draw(i)) == Some(cs[i])
    {
      var j := DrawAt(pool, cs, i);
      assert draw(i) == j;
      ChoiceAt(Candidates(pool, Last(cs[..i])), j);
    }
  }

  lemma ChoiceAt<C>(cands: seq<C>, j: nat)
    requires j < |cands|
    ensures Choice(cands, j) == Some(cands[j])
  {
  }

  /** Every colouring that obeys the rule is one the pass can produce: the
      linear rule is exactly the set of outcomes of `compute_segment_colors`. */
  lemma AssignComplete<C>(pool: seq<C>, cs: seq<C>)
    requires LinearlyDistinct(pool, cs)
    ensures Assign(pool, |cs|, DrawsFor(pool, cs)) == Some(cs)
  {
    DrawsForPicks(pool, cs);
    AssignPrefix(pool, cs, DrawsFor(pool, cs), |cs|);
    assert cs[..|cs|] == cs;
  }

  /** The pass never compares the last segment with the first: with three
      pool colours whose first two differ, a constant draw of 0 colours three
      segments first, second, first, so the wrap-around pair repeats. */
  lemma WrapAroundNotChecked<C>(p: C, s: C, t: C, draw: Draws)
    requires p != s
    requires draw(0) == 0 && draw(1) == 0 && draw(2) == 0
    ensures Assign([p, s, t], 3, draw) == Some([p, s, p])
  {
    var pool := [p, s, t];
    assert pool[1..] == [s, t];
    assert [s, t][1..] == [t];
    assert Without(pool, p) == [s] + Without([t], p);
    assert Without(pool, s) == [p] + Without([s, t], s);
    AssignStep(pool, 0, draw, [], p);
    assert [] + [p] == [p];
    AssignStep(pool, 1, draw, [p], s);
    assert [p] + [s] == [p, s];
    AssignStep(pool, 2, draw, [p, s], p);
    assert [p, s] + [p] == [p, s, p];
  }
}

=== FILE: colors.dfy ===
/** Colour helpers of the wheel program: parsing `#RRGGBB` codes into RGB
    triples and the perceived-brightness test used to pick a label colour. */
module Colors {
  import opened Wrappers

  /** An RGB triple as built by `hex_to_rgb` (a tuple of three ints). */
  datatype Rgb = Rgb(r: int, g: int, b: int)

  predicate IsChannel(v: int) { 0 <= v < 256 }

  predicate IsByteColor(c: Rgb) { IsChannel(c.r) && IsChannel(c.g) && IsChannel(c.b) }

  /** Value of one digit as `int(_, 16)` reads it (either letter case). */
  function HexDigitValue(ch: char): (r: Option<nat>)
    ensures r.Some? ==> r.value < 16
  {
    if '0' <= ch <= '9' then Some(ch as nat - '0' as nat)
    else if 'a' <= ch <= 'f' then Some(ch as nat - 'a' as nat + 10)
    else if 'A' <= ch <= 'F' then Some(ch as nat - 'A' as nat + 10)
    else None
  }

  predicate IsHexDigit(ch: char) { HexDigitValue(ch).Some? }

  function Pow16(k: nat): (r: nat)
    ensures r >= 1
  {
    if k == 0 then 1 else 16 * Pow16(k - 1)
  }

  /** `int(s, 16)` on a string of plain hex digits; the empty string (and any
      other character) is a ValueError, modelled as None. */
  function ParseHex(s: string): (r: Option<nat>)
    ensures r.Some? <==> s != [] && forall i :: 0 <= i < |s| ==> IsHexDigit(s[i])
    ensures r.Some? ==> r.value < Pow16(|s|)
    decreases |s|
  {
    if s == [] then None
    else if |s| == 1 then HexDigitValue(s[0])
    else
      match ParseHex(s[..|s| - 1])
      case None => None
      case Some(high) =>
        match HexDigitValue(s[|s| - 1])
        case None => None
        case Some(low) => Some(16 * high + low)
  }

  /** `s.lstrip(ch)`: drops every leading occurrence of `ch`. */
  function LStrip(s: string, ch: char): (r: string)
    ensures |r| <= |s| && r == s[|s| - |r|..]
    ensures r == [] || r[0] != ch
    ensures forall i :: 0 <= i < |s| - |r| ==> s[i] == ch
  {
    if s != [] && s[0] == ch then LStrip(s[1..], ch) else s
  }

  function Clamp(x: nat, n: nat): nat { if x <= n then x else n }

  /** Python's slice `s[i:j]` for `0 <= i <= j`: bounds past the end are clamped. */
  function Slice(s: string, i: nat, j: nat): (r: string)
    requires i <= j
    ensures |r| == (if j <= |s| then j - i else if i <= |s| then |s| - i else 0)
    ensures r == s[Clamp(i, |s|)..Clamp(j, |s|)]
  {
    if |s| <= i then [] else if |s| <= j then s[i..] else s[i..j]
  }

  /** The characters `hex_to_rgb` reads, after the '#' prefix, are all hex
      digits and the third field is not empty. */
  predicate IsHexBody(s: string)
  {
    |s| >= 5 && forall i :: 0 <= i < |s| && i < 6 ==> IsHexDigit(s[i])
  }

  /** `hex_to_rgb`: strip leading '#', then read the three two-character
      fields at offsets 0, 2 and 4. Python accepts a short last field
      (five digits) and ignores characters past the sixth. */
  function HexToRgb(hex: string): (r: Option<Rgb>)
    ensures r.Some? ==> IsByteColor(r.value)
    ensures r.Some? <==> IsHexBody(LStrip(hex, '#'))
  {
    var s := LStrip(hex, '#');
    var red := ParseHex(Slice(s, 0, 2));
    var green := ParseHex(Slice(s, 2, 4));
    var blue := ParseHex(Slice(s, 4, 6));
    FieldsParse(s);
    if red.Some? && green.Some? && blue.Some? then
      Some(Rgb(red.value, green.value, blue.value))
    else
      None
  }

  lemma FieldsParse(s: string)
    ensures (ParseHex(Slice(s, 0, 2)).Some? && ParseHex(Slice(s, 2, 4)).Some?
             && ParseHex(Slice(s, 4, 6)).Some?) <==> IsHexBody(s)
  {
    var f0, f1, f2 := Slice(s, 0, 2), Slice(s, 2, 4), Slice(s, 4, 6);
    if IsHexBody(s) {
      forall i | 0 <= i < |f2| ensures IsHexDigit(f2[i]) {
        assert f2[i] == s[4 + i];
      }
      forall i | 0 <= i < |f1| ensures IsHexDigit(f1[i]) {
        assert f1[i] == s[2 + i];
      }
      forall i | 0 <= i < |f0| ensures IsHexDigit(f0[i]) {
        assert f0[i] == s[i];
      }
    }
    if ParseHex(f0).Some? && ParseHex(f1).Some? && ParseHex(f2).Some? {
      forall i | 0 <= i < |s| && i < 6 ensures IsHexDigit(s[i]) {
        if i < 2 { assert s[i] == f0[i]; }
        else if i < 4 { assert s[i] == f1[i - 2]; }
        else { assert s[i] == f2[i - 4]; }
      }
    }
  }

  /** The value of a hex digit, in either letter case. */
  function Digit(ch: char): (v: nat)
    requires IsHexDigit(ch)
    ensures v < 16
  {
    HexDigitValue(ch).value
  }

  /** `int(xy, 16)` for two hex digits of either case is `16 * x + y`. */
  lemma ParseTwoHex(x: char, y: char)
    requires IsHexDigit(x) && IsHexDigit(y)
    ensures ParseHex([x, y]) == Some(16 * Digit(x) + Digit(y))
  {
    assert [x, y][..1] == [x];
  }

  /** The channels `hex_to_rgb` reads from any accepted code: two digits
      each, except that a five-digit body gives a one-digit blue. */
  lemma HexToRgbChannels(hex: string, s: string)
    requires s == LStrip(hex, '#') && IsHexBody(s)
    ensures HexToRgb(hex).Some?
    ensures HexToRgb(hex).value.r == 16 * Digit(s[0]) + Digit(s[1])
    ensures HexToRgb(hex).value.g == 16 * Digit(s[2]) + Digit(s[3])
    ensures HexToRgb(hex).value.b == if |s| >= 6 then 16 * Digit(s[4]) + Digit(s[5]) else Digit(s[4])
  {
    RedChannel(hex, s);
    GreenChannel(hex, s);
    BlueChannel(hex, s);
  }

  lemma RedChannel(hex: string, s: string)
    requires s == LStrip(hex, '#') && IsHexBody(s)
    ensures HexToRgb(hex).Some? && HexToRgb(hex).value.r == 16 * Digit(s[0]) + Digit(s[1])
  {
    FieldValue(s, 0);
  }

  lemma GreenChannel(hex: string, s: string)
    requires s == LStrip(hex, '#') && IsHexBody(s)
    ensures HexToRgb(hex).Some? && HexToRgb(hex).value.g == 16 * Digit(s[2]) + Digit(s[3])
  {
    FieldValue(s, 2);
  }

  lemma BlueChannel(hex: string, s: string)
    requires s == LStrip(hex, '#') && IsHexBody(s)
    ensures HexToRgb(hex).Some?
    ensures HexToRgb(hex).value.b == if |s| >= 6 then 16 * Digit(s[4]) + Digit(s[5]) else Digit(s[4])
  {
    if |s| >= 6 { FieldValue(s, 4); } else { ShortField(s); }
  }

  lemma FieldValue(s: string, i: nat)
    requires IsHexBody(s) && (i == 0 || i == 2 || (i == 4 && |s| >= 6))
    ensures ParseHex(Slice(s, i, i + 2)) == Some(16 * Digit(s[i]) + Digit(s[i + 1]))
  {
    assert IsHexDigit(s[i]) && IsHexDigit(s[i + 1]);
    assert Slice(s, i, i + 2) == [s[i], s[i + 1]];
    ParseTwoHex(s[i], s[i + 1]);
  }

  lemma ShortField(s: string)
    requires IsHexBody(s) && |s| == 5
    ensures ParseHex(Slice(s, 4, 6)) == Some(Digit(s[4]))
  {
    assert IsHexDigit(s[4]);
    assert Slice(s, 4, 6) == [s[4]];
  }

  /** Upper-case digit for a value below 16 (the style of the team table). */
  function HexChar(v: nat): (ch: char)
    requires v < 16
    ensures HexDigitValue(ch) == Some(v)
  {
    if v < 10 then ('0' as nat + v) as char else ('A' as nat + v - 10) as char
  }

  /** The `#RRGGBB` code of a byte colour: the inverse of `HexToRgb`. */
  function RgbToHex(c: Rgb): (hex: string)
    requires IsByteColor(c)
    ensures |hex| == 7 && hex[0] == '#'
  {
    "#" + [HexChar(c.r / 16), HexChar(c.r % 16),
           HexChar(c.g / 16), HexChar(c.g % 16),
           HexChar(c.b / 16), HexChar(c.b % 16)]
  }

  lemma ParseTwoDigits(v: nat)
    requires v < 256
    ensures ParseHex([HexChar(v / 16), HexChar(v % 16)]) == Some(v)
  {
    var s := [HexChar(v / 16), HexChar(v % 16)];
    assert s[..1] == [HexChar(v / 16)];
  }

  /** Parsing the code printed for a byte colour gives the colour back. */
  lemma {:induction false} HexRoundTrip(c: Rgb)
    requires IsByteColor(c)
    ensures HexToRgb(RgbToHex(c)) == Some(c)
  {
    var hex := RgbToHex(c);
    var s := LStrip(hex, '#');
    assert hex[1..] == s by {
      assert hex[1] != '#' by { assert HexDigitValue(hex[1]).Some?; }
      assert LStrip(hex[1..], '#') == hex[1..];
    }
    assert Slice(s, 0, 2) == [HexChar(c.r / 16), HexChar(c.r % 16)];
    assert Slice(s, 2, 4) == [HexChar(c.g / 16), HexChar(c.g % 16)];
    assert Slice(s, 4, 6) == [HexChar(c.b / 16), HexChar(c.b % 16)];
    ParseTwoDigits(c.r);
    ParseTwoDigits(c.g);
    ParseTwoDigits(c.b);
  }

  /** `is_bright_color` with the weights scaled by 1000 so the test is exact. */
  predicate IsBrightColor(c: Rgb)
  {
    299 * c.r + 587 * c.g + 114 * c.b > 186000
  }

  /** The scaled integer test decides exactly the source's weighted-sum
      comparison `0.299 r + 0.587 g + 0.114 b > 186`, read over exact reals. */
  lemma BrightnessMatchesWeightedSum(c: Rgb)
    ensures IsBrightColor(c) <==>
              c.r as real * 0.299 + c.g as real * 0.587 + c.b as real * 0.114 > 186.0
  {
  }
}

=== FILE: geometry.dfy ===
/** Angle and distance arithmetic of the wheel: which segment sits under the
    pointer, and whether a click lands on a wheel's disc. Angles are exact
    real degrees; the source keeps radians and converts at both ends. */
module Geometry {
  import opened Wrappers

  /** Python's floor-based `x % 360`, over exact reals: never negative, always below 360. */
  function Mod360(x: real): (r: real)
    ensures 0.0 <= r < 360.0
  {
    x - 360.0 * (x / 360.0).Floor as real
  }

  /** `k` whole turns, in degrees. */
  function Turns(k: int): real
  {
    360.0 * k as real
  }

  /** Adding whole turns does not change an angle's normalised value. */
  lemma Mod360Turns(x: real, k: int)
    ensures Mod360(x + Turns(k)) == Mod360(x)
  {
    var y := x + Turns(k);
    assert y / 360.0 == x / 360.0 + k as real;
    FloorShift(x / 360.0, k);
  }

  lemma FloorShift(y: real, k: int)
    ensures (y + k as real).Floor == y.Floor + k
  {
  }

  /** A value in [0, 360) that differs from `x` by whole turns is `Mod360(x)`. */
  lemma Mod360Unique(x: real, a: real, k: int)
    requires 0.0 <= a < 360.0 && a == x + Turns(k)
    ensures a == Mod360(x)
  {
    Mod360Turns(x, k);
    assert a / 360.0 < 1.0;
    assert (a / 360.0).Floor == 0;
  }

  /** Angular width of one of `n` equal segments. */
  function SegmentWidth(n: nat): (w: real)
    requires n > 0
    ensures w > 0.0
  {
    360.0 / n as real
  }

  /** `get_selected_segment`: the pointer sits at the top of the wheel, which
      is -90 degrees in screen coordinates; the index is the floor of the
      normalised angle over the segment width, taken modulo `n`. */
  function SelectedSegment(rotation: real, n: nat): (r: Option<nat>)
    ensures r.None? <==> n == 0
    ensures r.Some? ==> r.value < n
  {
    if n == 0 then None
    else
      var adjusted := Mod360(-rotation - 90.0);
      var index := (adjusted / SegmentWidth(n)).Floor;
      Some(index % n)
  }

  /** Segment `i` of a wheel turned by `rotation` is drawn over the arc from
      `i * width + rotation` to `(i + 1) * width + rotation`; it is under the
      pointer when some full-turn copy of the pointer direction -90 lies in
      that arc. */
  ghost predicate UnderPointer(rotation: real, n: nat, i: nat)
    requires n > 0
  {
    exists k: int :: i as real * SegmentWidth(n) + rotation <= -90.0 + Turns(k)
                     < (i + 1) as real * SegmentWidth(n) + rotation
  }

  lemma ScaleStrict(x: real, y: real, w: real)
    requires w > 0.0 && x < y
    ensures x * w < y * w
  {
    assert (y - x) * w > 0.0;
  }

  lemma FloorOfQuotient(a: real, w: real, i: int)
    requires w > 0.0
    ensures (a / w).Floor == i <==> i as real * w <= a < (i + 1) as real * w
  {
    var q := a / w;
    var lo, hi := i as real, (i + 1) as real;
    assert q * w == a;
    if lo * w <= a < hi * w {
      if q < lo { ScaleStrict(q, lo, w); }
      if q > hi { ScaleStrict(hi, q, w); }
      assert lo <= q < hi;
    }
    if q.Floor == i {
      assert lo <= q < hi;
      if q > lo { ScaleStrict(lo, q, w); }
      if q == lo { assert q * w == lo * w; }
      ScaleStrict(q, hi, w);
      calc {
        a;
      ==
        q * w;
      <
        hi * w;
      }
      assert lo * w <= a;
    }
  }

  lemma WidthTimesCount(n: nat, i: nat)
    requires 0 < n && i <= n
    ensures i as real * SegmentWidth(n) <= 360.0
    ensures i == n ==> i as real * SegmentWidth(n) == 360.0
  {
    var w := SegmentWidth(n);
    assert n as real * w == 360.0;
    assert i as real * w <= n as real * w;
  }

  /** The winner's arc, measured from the pointer, holds the normalised angle. */
  lemma SelectedArc(rotation: real, n: nat)
    requires n > 0
    ensures var i := SelectedSegment(rotation, n).value;
            i as real * SegmentWidth(n) <= Mod360(-rotation - 90.0) < (i + 1) as real * SegmentWidth(n)
  {
    var w := SegmentWidth(n);
    var adjusted := Mod360(-rotation - 90.0);
    var index := (adjusted / w).Floor;
    FloorOfQuotient(adjusted, w, index);
    WidthTimesCount(n, n);
    assert 0 <= index;
    assert index < n by {
      if index >= n {
        if n < index { ScaleStrict(n as real, index as real, w); }
      }
    }
    assert index % n == index;
  }

  lemma SelectedGivesPointerTurn(rotation: real, n: nat)
    requires n > 0
    ensures SelectedSegment(rotation, n).value < n
    ensures UnderPointer(rotation, n, SelectedSegment(rotation, n).value)
  {
    var w := SegmentWidth(n);
    var x := -rotation - 90.0;
    var i := SelectedSegment(rotation, n).value;
    SelectedArc(rotation, n);
    var k := -(x / 360.0).Floor;
    assert Mod360(x) == x + Turns(k);
    assert i as real * w + rotation <= -90.0 + Turns(k) < (i + 1) as real * w + rotation;
  }

  lemma PointerTurnGivesSelected(rotation: real, n: nat, i: nat)
    requires n > 0 && i < n && UnderPointer(rotation, n, i)
    ensures SelectedSegment(rotation, n) == Some(i)
  {
    var w := SegmentWidth(n);
    var k: int :| i as real * w + rotation <= -90.0 + Turns(k) < (i + 1) as real * w + rotation;
    ArcGivesSelected(rotation, n, i, -rotation - 90.0 + Turns(k), k);
  }

  lemma ArcGivesSelected(rotation: real, n: nat, i: nat, a: real, k: int)
    requires n > 0 && i < n && a == -rotation - 90.0 + Turns(k)
    requires i as real * SegmentWidth(n) <= a < (i + 1) as real * SegmentWidth(n)
    ensures SelectedSegment(rotation, n) == Some(i)
  {
    var w := SegmentWidth(n);
    InArcIsNormalised(-rotation - 90.0, a, k, n, i);
    SelectedArc(rotation, n);
    var j := SelectedSegment(rotation, n).value;
    assert j as real * w <= a < (j + 1) as real * w;
    assert SelectedSegment(rotation, n) == Some(j);
    SameArc(a, w, i, j);
  }

  lemma SameArc(a: real, w: real, i: int, j: int)
    requires w > 0.0
    requires i as real * w <= a < (i + 1) as real * w
    requires j as real * w <= a < (j + 1) as real * w
    ensures i == j
  {
    FloorOfQuotient(a, w, i);
    FloorOfQuotient(a, w, j);
  }

  lemma InArcIsNormalised(x: real, a: real, k: int, n: nat, i: nat)
    requires n > 0 && i < n && a == x + Turns(k)
    requires i as real * SegmentWidth(n) <= a < (i + 1) as real * SegmentWidth(n)
    ensures a == Mod360(x)
  {
    var w := SegmentWidth(n);
    assert 0.0 <= a by {
      assert 0.0 <= i as real * w;
    }
    assert a < 360.0 by {
      WidthTimesCount(n, i + 1);
    }
    Mod360Unique(x, a, k);
  }

  /** The computed winner is exactly the segment whose arc contains the
      pointer: the index formula agrees with the layout used for drawing. */
  lemma SelectedIsUnderPointer(rotation: real, n: nat, i: nat)
    requires n > 0
    ensures SelectedSegment(rotation, n) == Some(i) <==> i < n && UnderPointer(rotation, n, i)
  {
    SelectedGivesPointerTurn(rotation, n);
    if i < n && UnderPointer(rotation, n, i) {
      PointerTurnGivesSelected(rotation, n, i);
    }
  }

  /** Whole extra turns of the wheel never change the winner. */
  lemma SelectedInvariantUnderTurns(rotation: real, n: nat, k: int)
    ensures SelectedSegment(rotation + Turns(k), n) == SelectedSegment(rotation, n)
  {
    if n > 0 {
      Mod360Turns(-rotation - 90.0, -k);
      assert -(rotation + Turns(k)) - 90.0 == (-rotation - 90.0) + Turns(-k);
    }
  }

  /** The click test `sqrt(dx^2 + dy^2) <= radius`, squared to stay in
      integers; a negative radius contains nothing, as in the source. */
  predicate InDisc(px: int, py: int, cx: int, cy: int, radius: int)
  {
    radius >= 0 && (px - cx) * (px - cx) + (py - cy) * (py - cy) <= radius * radius
  }

  /** The least `k` with `k * k >= n`: the Euclidean distance rounded up. */
  function CeilSqrt(n: nat): (k: nat)
    ensures k * k >= n
    ensures k == 0 || (k - 1) * (k - 1) < n
  {
    CeilSqrtFrom(n, 0)
  }

  function CeilSqrtFrom(n: nat, k: nat): (r: nat)
    requires k == 0 || (k - 1) * (k - 1) < n
    ensures r * r >= n
    ensures r == 0 || (r - 1) * (r - 1) < n
    decreases n - k
  {
    if k * k >= n then k
    else
      assert k < n by {
        if k >= 1 { assert k <= k * k; }
      }
      CeilSqrtFrom(n, k + 1)
  }

  lemma SquareMonotone(a: nat, b: nat)
    requires a <= b
    ensures a * a <= b * b
  {
    assert a * a <= a * b <= b * b;
  }

  /** The squared test agrees with comparing the true distance to the radius:
      for an integer radius, `distance <= radius` exactly when the distance
      rounded up is at most the radius. Points on the rim count as inside. */
  lemma {:induction false} InDiscIffDistanceWithinRadius(px: int, py: int, cx: int, cy: int, radius: int)
    ensures InDisc(px, py, cx, cy, radius) <==>
              CeilSqrt((px - cx) * (px - cx) + (py - cy) * (py - cy)) <= radius
  {
    var d2 := (px - cx) * (px - cx) + (py - cy) * (py - cy);
    var k := CeilSqrt(d2);
    if InDisc(px, py, cx, cy, radius) && k > radius {
      SquareMonotone(radius, k - 1);
    }
    if k <= radius {
      SquareMonotone(k, radius);
    }
  }
}

=== FILE: teams.dfy ===
/** The program's fixed table of teams and their hex colour codes, and the
    facts about it the rest of the model relies on. */
module Teams {
  import opened Wrappers
  import opened Colors
  import opened ColorAssignment
  import opened WheelState

  datatype TeamEntry = TeamEntry(name: string, primary: string, secondary: string, tertiary: string)

  /** `TEAM_COLORS`, in its insertion order (which is `TEAM_NAMES`). */
  const TeamColors: seq<TeamEntry> := [
    TeamEntry("Red Bull", "#1E41FF", "#FFDD00", "#FFFFFF"),
    TeamEntry("Ferrari", "#DC0000", "#FFFFFF", "#000000"),
    TeamEntry("Mercedes", "#00D2BE", "#FFFFFF", "#000000"),
    TeamEntry("McLaren", "#FF8700", "#000000", "#FFFFFF"),
    TeamEntry("Aston Martin", "#006F62", "#FFFFFF", "#000000"),
    TeamEntry("Alpine", "#0090FF", "#FF0000", "#FFFFFF"),
    TeamEntry("Haas", "#FFFFFF", "#000000", "#FF0000"),
    TeamEntry("AlphaTauri", "#4E5DAB", "#FFFFFF", "#FFDD00"),
    TeamEntry("Alfa Romeo", "#900000", "#FFFFFF", "#000000"),
    TeamEntry("Williams", "#005AFF", "#FFFFFF", "#FFDD00")
  ]

  /** The palette a team's wheel is built with: `hex_to_rgb` of each code. */
  function TeamPalette(t: TeamEntry): Option<Palette>
  {
    match (HexToRgb(t.primary), HexToRgb(t.secondary), HexToRgb(t.tertiary))
    case (Some(p), Some(s), Some(c)) => Some(Palette(p, s, c))
    case _ => None
  }

  /** A palette with at least two different colours never makes the
      colouring pass draw from an empty list. */
  predicate Usable(p: Palette)
  {
    !Monochrome(Pool(p))
  }

  lemma EntryUsable(t: TeamEntry, p: Rgb, s: Rgb, c: Rgb)
    requires IsByteColor(p) && IsByteColor(s) && IsByteColor(c) && p != s
    requires t.primary == RgbToHex(p) && t.secondary == RgbToHex(s) && t.tertiary == RgbToHex(c)
    ensures TeamPalette(t) == Some(Palette(p, s, c))
    ensures Usable(Palette(p, s, c))
  {
    HexRoundTrip(p);
    HexRoundTrip(s);
    HexRoundTrip(c);
    ParsedPalette(t, p, s, c);
    assert Pool(Palette(p, s, c))[1] != Pool(Palette(p, s, c))[0];
  }

  lemma ParsedPalette(t: TeamEntry, p: Rgb, s: Rgb, c: Rgb)
    requires HexToRgb(t.primary) == Some(p)
    requires HexToRgb(t.secondary) == Some(s)
    requires HexToRgb(t.tertiary) == Some(c)
    ensures TeamPalette(t) == Some(Palette(p, s, c))
  {
  }

  /** Team `i`'s three codes parse and its first two colours differ. */
  predicate TeamUsable(i: nat)
    requires i < |TeamColors|
  {
    TeamPalette(TeamColors[i]).Some? && Usable(TeamPalette(TeamColors[i]).value)
  }

  lemma TeamUsable0()
    ensures TeamUsable(0)
  {
    EntryUsable(TeamColors[0], Rgb(30, 65, 255), Rgb(255, 221, 0), Rgb(255, 255, 255));
  }

  lemma TeamUsable1()
    ensures TeamUsable(1)
  {
    EntryUsable(TeamColors[1], Rgb(220, 0, 0), Rgb(255, 255, 255), Rgb(0, 0, 0));
  }

  lemma TeamUsable2()
    ensures TeamUsable(2)
  {
    EntryUsable(TeamColors[2], Rgb(0, 210, 190), Rgb(255, 255, 255), Rgb(0, 0, 0));
  }

  lemma TeamUsable3()
    ensures TeamUsable(3)
  {
    EntryUsable(TeamColors[3], Rgb(255, 135, 0), Rgb(0, 0, 0), Rgb(255, 255, 255));
  }

  lemma TeamUsable4()
    ensures TeamUsable(4)
  {
    EntryUsable(TeamColors[4], Rgb(0, 111, 98), Rgb(255, 255, 255), Rgb(0, 0, 0));
  }

  lemma TeamUsable5()
    ensures TeamUsable(5)
  {
    EntryUsable(TeamColors[5], Rgb(0, 144, 255), Rgb(255, 0, 0), Rgb(255, 255, 255));
  }

  lemma TeamUsable6()
    ensures TeamUsable(6)
  {
    EntryUsable(TeamColors[6], Rgb(255, 255, 255), Rgb(0, 0, 0), Rgb(255, 0, 0));
  }

  lemma TeamUsable7()
    ensures TeamUsable(7)
  {
    EntryUsable(TeamColors[7], Rgb(78, 93, 171), Rgb(255, 255, 255), Rgb(255, 221, 0));
  }

  lemma TeamUsable8()
    ensures TeamUsable(8)
  {
    EntryUsable(TeamColors[8], Rgb(144, 0, 0), Rgb(255, 255, 255), Rgb(0, 0, 0));
  }

  lemma TeamUsable9()
    ensures TeamUsable(9)
  {
    EntryUsable(TeamColors[9], Rgb(0, 90, 255), Rgb(255, 255, 255), Rgb(255, 221, 0));
  }

  /** Every team code parses, and every team palette is usable, so no team
      wheel ever reaches the empty `random.choice`. */
  lemma TeamPalettesUsable()
    ensures forall i :: 0 <= i < |TeamColors| ==> TeamUsable(i)
  {
    TeamUsable0(); TeamUsable1(); TeamUsable2(); TeamUsable3(); TeamUsable4();
    TeamUsable5(); TeamUsable6(); TeamUsable7(); TeamUsable8(); TeamUsable9();
    forall i | 0 <= i < |TeamColors| ensures TeamUsable(i) {
      assert i in {0, 1, 2, 3, 4, 5, 6, 7, 8, 9};
    }
  }
}

=== FILE: text.dfy ===
/** Python's `str.strip()` with no argument, as applied to the typed name. */
module Text {

  /** The characters for which Python's `str.isspace()` holds. */
  predicate IsSpace(c: char)
  {
    || ('\t' <= c <= '\r')
    || ('\U{1C}' <= c <= ' ')
    || c == '\U{85}' || c == '\U{A0}' || c == '\U{1680}'
    || ('\U{2000}' <= c <= '\U{200A}')
    || c == '\U{2028}' || c == '\U{2029}' || c == '\U{202F}' || c == '\U{205F}' || c == '\U{3000}'
  }

  /** Where `s.lstrip()` starts: the first position at or after `i` that
      holds no whitespace, or the end of `s`. */
  function StartOf(s: string, i: nat): (a: nat)
    requires i <= |s|
    ensures i <= a <= |s|
    ensures a == |s| || !IsSpace(s[a])
    ensures forall k :: i <= k < a ==> IsSpace(s[k])
    decreases |s| - i
  {
    if i < |s| && IsSpace(s[i]) then StartOf(s, i + 1) else i
  }

  /** Where `rstrip()` ends on `s[a..j]`: the last position after which only
      whitespace follows, but not before `a`. */
  function EndOf(s: string, a: nat, j: nat): (b: nat)
    requires a <= j <= |s|
    ensures a <= b <= j
    ensures b == a || !IsSpace(s[b - 1])
    ensures forall k :: b <= k < j ==> IsSpace(s[k])
    decreases j
  {
    if j > a && IsSpace(s[j - 1]) then EndOf(s, a, j - 1) else j
  }

  /** `r` is the piece of `s` at offset `a`, and everything before and
      after that piece is whitespace. */
  predicate StrippedAt(s: string, r: string, a: nat)
  {
    && a <= |s| - |r| && r == s[a..a + |r|]
    && (forall i :: 0 <= i < a ==> IsSpace(s[i]))
    && (forall i :: a + |r| <= i < |s| ==> IsSpace(s[i]))
  }

  /** `s.strip()`: a contiguous piece of `s`, empty exactly when `s` is all
      whitespace, with whitespace at neither end, and only whitespace
      dropped before and after it. */
  function Strip(s: string): (r: string)
    ensures r == [] <==> forall i :: 0 <= i < |s| ==> IsSpace(s[i])
    ensures r != [] ==> !IsSpace(r[0]) && !IsSpace(r[|r| - 1])
    ensures exists a :: StrippedAt(s, r, a)
  {
    var a := StartOf(s, 0);
    var b := EndOf(s, a, |s|);
    assert StrippedAt(s, s[a..b], a);
    s[a..b]
  }

  /** The contract of `Strip` pins its result down: any piece of `s` with
      only whitespace around it and none at its ends is the strip. */
  lemma StripDetermined(s: string, r: string, a: nat)
    requires StrippedAt(s, r, a)
    requires r != [] ==> !IsSpace(r[0]) && !IsSpace(r[|r| - 1])
    ensures r == Strip(s)
  {
    if r == [] {
      assert forall i :: 0 <= i < |s| ==> IsSpace(s[i]);
    } else {
      var a0 := StartOf(s, 0);
      var b0 := EndOf(s, a0, |s|);
      var b := a + |r|;
      assert s[a] == r[0] && s[b - 1] == r[|r| - 1];
      assert a0 == a;
      assert b0 == b;
    }
  }

  /** Stripping twice is stripping once. */
  lemma StripIdempotent(s: string)
    ensures Strip(Strip(s)) == Strip(s)
  {
    var r := Strip(s);
    if r != [] {
      assert StartOf(r, 0) == 0;
      assert EndOf(r, 0, |r|) == |r|;
      assert r[0..|r|] == r;
    }
  }
}

=== FILE: wheel.dfy ===
/** The `Wheel` class as an immutable record with pure transitions: the
    participant pool and its segment colours, the spin phase, and winner
    resolution. Rendering is not modelled. */
module WheelState {
  import opened Wrappers
  import opened Colors
  import opened ColorAssignment
  import opened Geometry

  /** The team's primary, secondary and tertiary colours, fixed at construction. */
  datatype Palette = Palette(primary: Rgb, secondary: Rgb, tertiary: Rgb)

  /** The `color_pool` list the colouring pass draws from. */
  function Pool(p: Palette): seq<Rgb>
  {
    [p.primary, p.secondary, p.tertiary]
  }

  /** A value of `random.random()`, which `random.uniform` scales. */
  type UnitDraw = u: real | 0.0 <= u < 1.0

  /** Friction applied to the speed on every frame. */
  const Decay: real := 0.98
  /** Below this speed (degrees per frame) the wheel comes to rest. */
  const StopThreshold: real := 0.1
  /** Bounds of the initial speed `random.uniform(10, 20)`. */
  const MinSpinSpeed: real := 10.0
  const MaxSpinSpeed: real := 20.0

  /** One wheel. `rotation` is in degrees (the source stores radians and
      converts both ways) and `spinSpeed` is in degrees per frame, as in the
      source. `stoppedSegment` is the last resolved winner's index. */
  datatype Wheel = Wheel(
    x: int, y: int, radius: int,
    teamName: string,
    palette: Palette,
    participants: seq<string>,
    segmentColors: seq<Rgb>,
    rotation: real,
    spinning: bool,
    spinSpeed: real,
    selected: bool,
    stoppedSegment: Option<nat>)

  /** The segment colours agree with the participants and follow the linear
      adjacency rule. */
  predicate WellColored(w: Wheel)
  {
    |w.segmentColors| == |w.participants| && LinearlyDistinct(Pool(w.palette), w.segmentColors)
  }

  /** A resolved winner names an existing participant. */
  predicate WinnerInRange(w: Wheel)
  {
    w.stoppedSegment.Some? ==> w.stoppedSegment.value < |w.participants|
  }

  /** What every wheel reachable through the program's own commands satisfies. */
  predicate Consistent(w: Wheel)
  {
    WellColored(w) && WinnerInRange(w) && (w.spinning ==> w.stoppedSegment.None?)
  }

  /** The constructor: no participants, at rest, unselected, no winner. */
  function NewWheel(x: int, y: int, radius: int, teamName: string, palette: Palette): (w: Wheel)
    ensures Consistent(w)
    ensures w.participants == [] && !w.spinning && !w.selected && w.stoppedSegment.None?
    ensures w.rotation == 0.0 && w.spinSpeed == 0.0
    ensures w.palette == palette && w.teamName == teamName
    ensures w.x == x && w.y == y && w.radius == radius && w.segmentColors == []
  {
    Wheel(x, y, radius, teamName, palette, [], [], 0.0, false, 0.0, false, None)
  }

  /** `is_clicked`: the point lies on the wheel's disc, rim included. */
  predicate IsClicked(w: Wheel, px: int, py: int)
  {
    InDisc(px, py, w.x, w.y, w.radius)
  }

  /** `compute_segment_colors`: recolour every segment from scratch. None
      when `random.choice` raises on an empty candidate list. */
  function Recolor(w: Wheel, draw: Draws): (r: Option<Wheel>)
    ensures r.None? <==> |w.participants| >= 2 && Monochrome(Pool(w.palette))
    ensures r.Some? ==> WellColored(r.value)
    ensures r.Some? ==> r.value == w.(segmentColors := r.value.segmentColors)
  {
    match Assign(Pool(w.palette), |w.participants|, draw)
    case None => None
    case Some(colors) =>
      AssignSound(Pool(w.palette), |w.participants|, draw);
      Some(w.(segmentColors := colors))
  }

  /** `add_participant`: append the name and recolour. */
  function AddParticipant(w: Wheel, name: string, draw: Draws): (r: Option<Wheel>)
    ensures r.None? <==> |w.participants| >= 1 && Monochrome(Pool(w.palette))
    ensures r.Some? ==> r.value.participants == w.participants + [name]
    ensures r.Some? ==> WellColored(r.value)
    ensures r.Some? ==>
              r.value == w.(participants := r.value.participants, segmentColors := r.value.segmentColors)
    ensures r.Some? && Consistent(w) ==> Consistent(r.value)
  {
    Recolor(w.(participants := w.participants + [name]), draw)
  }

  /** `remove_participant`: an index outside the pool is silently ignored;
      otherwise delete that position and recolour. */
  function RemoveParticipant(w: Wheel, index: int, draw: Draws): (r: Option<Wheel>)
    ensures !(0 <= index < |w.participants|) ==> r == Some(w)
    ensures 0 <= index < |w.participants| ==>
              (r.None? <==> |w.participants| >= 3 && Monochrome(Pool(w.palette)))
    ensures r.Some? && 0 <= index < |w.participants| ==>
              && |r.value.participants| == |w.participants| - 1
              && (forall j :: 0 <= j < index ==> r.value.participants[j] == w.participants[j])
              && (forall j :: index <= j < |r.value.participants| ==>
                                r.value.participants[j] == w.participants[j + 1])
    ensures r.Some? ==> WellColored(r.value) || r == Some(w)
    ensures r.Some? ==>
              r.value == w.(participants := r.value.participants, segmentColors := r.value.segmentColors)
  {
    if 0 <= index < |w.participants| then
      Recolor(w.(participants := w.participants[..index] + w.participants[index + 1..]), draw)
    else
      Some(w)
  }

  /** `delete_stopped_segment`: remove the resolved winner (if any) and
      forget it. A stale index past the end removes nothing. */
  function DeleteStoppedSegment(w: Wheel, draw: Draws): (r: Option<Wheel>)
    ensures r.None? <==> && w.stoppedSegment.Some? && w.stoppedSegment.value < |w.participants|
                         && |w.participants| >= 3 && Monochrome(Pool(w.palette))
    ensures r.Some? ==>
              r.value == w.(participants := r.value.participants,
                            segmentColors := r.value.segmentColors, stoppedSegment := None)
    ensures w.stoppedSegment.None? ==> r == Some(w)
    ensures r.Some? ==> r.value.stoppedSegment.None?
    ensures r.Some? ==> |w.participants| - 1 <= |r.value.participants| <= |w.participants|
    ensures r.Some? && w.stoppedSegment.Some? && w.stoppedSegment.value < |w.participants| ==>
              var i := w.stoppedSegment.value;
              r.value.participants == w.participants[..i] + w.participants[i + 1..]
    ensures w.stoppedSegment.Some? && w.stoppedSegment.value >= |w.participants| ==>
              r == Some(w.(stoppedSegment := None))
    ensures r.Some? && Consistent(w) ==> Consistent(r.value)
  {
    match w.stoppedSegment
    case None => Some(w)
    case Some(i) =>
      match RemoveParticipant(w, i, draw)
      case None => None
      case Some(w') =>
        assert i < |w.participants| ==>
                 w'.participants == w.participants[..i] + w.participants[i + 1..];
        Some(w'.(stoppedSegment := None))
  }

  /** `spin`: ignored while spinning; otherwise arm the wheel with a speed
      `random.uniform(10, 20)` and forget the previous winner. */
  function Spin(w: Wheel, u: UnitDraw): (r: Wheel)
    ensures w.spinning ==> r == w
    ensures !w.spinning ==> r.spinning && r.stoppedSegment.None?
    ensures !w.spinning ==> MinSpinSpeed <= r.spinSpeed < MaxSpinSpeed
    ensures r == w.(spinning := r.spinning, spinSpeed := r.spinSpeed, stoppedSegment := r.stoppedSegment)
    ensures Consistent(w) ==> Consistent(r)
  {
    if w.spinning then w
    else w.(spinning := true,
            spinSpeed := MinSpinSpeed + (MaxSpinSpeed - MinSpinSpeed) * u,
            stoppedSegment := None)
  }

  /** `update`, one frame: advance by the current speed and apply friction;
      when the speed drops below the threshold the wheel stops and the
      winner under the pointer is resolved. Nothing happens at rest. */
  function Update(w: Wheel): (r: Wheel)
    ensures !w.spinning ==> r == w
    ensures w.spinning ==> r.rotation == w.rotation + w.spinSpeed
    ensures w.spinning ==> r.spinSpeed == w.spinSpeed * Decay
    ensures w.spinning ==> (r.spinning <==> r.spinSpeed >= StopThreshold)
    ensures w.spinning && r.spinning ==> r.stoppedSegment == w.stoppedSegment
    ensures w.spinning && !r.spinning ==>
              r.stoppedSegment == SelectedSegment(r.rotation, |r.participants|)
    ensures r == w.(rotation := r.rotation, spinSpeed := r.spinSpeed, spinning := r.spinning,
                    stoppedSegment := r.stoppedSegment)
    ensures Consistent(w) ==> Consistent(r)
  {
    if !w.spinning then w
    else
      var rotation := w.rotation + w.spinSpeed;
      var speed := w.spinSpeed * Decay;
      if speed < StopThreshold then
        w.(rotation := rotation, spinSpeed := speed, spinning := false,
           stoppedSegment := SelectedSegment(rotation, |w.participants|))
      else
        w.(rotation := rotation, spinSpeed := speed)
  }

  /** `get_selected_segment` for the wheel's current angle. */
  function WinnerNow(w: Wheel): (r: Option<nat>)
    ensures r.None? <==> w.participants == []
    ensures r.Some? ==> r.value < |w.participants| && UnderPointer(w.rotation, |w.participants|, r.value)
  {
    var r := SelectedSegment(w.rotation, |w.participants|);
    if r.Some? then
      SelectedIsUnderPointer(w.rotation, |w.participants|, r.value);
      r
    else
      r
  }

  /** An upper bound on the frames left before the wheel rests: each frame
      that keeps it spinning takes more than 1/500 degree per frame off the speed. */
  function SpinBudget(w: Wheel): nat
  {
    if !w.spinning then 0
    else if w.spinSpeed <= 0.0 then 1
    else (w.spinSpeed * 500.0).Floor + 1
  }

  lemma UpdateSpendsBudget(w: Wheel)
    requires w.spinning
    ensures SpinBudget(Update(w)) < SpinBudget(w)
  {
    var r := Update(w);
    if r.spinning {
      var s, s' := w.spinSpeed, r.spinSpeed;
      assert s' * 500.0 < s * 500.0 - 1.0;
      FloorMonotone(s' * 500.0, s * 500.0 - 1.0);
      FloorShift(s * 500.0, -1);
    }
  }

  lemma FloorMonotone(a: real, b: real)
    requires a <= b
    ensures a.Floor <= b.Floor
  {
  }

  /** `update` repeated for `k` frames with no command in between. */
  function UpdateN(w: Wheel, k: nat): Wheel
    decreases k
  {
    if k == 0 then w else UpdateN(Update(w), k - 1)
  }

  /** Left alone, a spinning wheel comes to rest, having resolved the winner
      for its final angle and pool, within `SpinBudget` frames. */
  lemma {:induction false} SpinTerminates(w: Wheel, k: nat)
    requires k >= SpinBudget(w)
    ensures !UpdateN(w, k).spinning
    ensures UpdateN(w, k).participants == w.participants
    ensures w.spinning ==>
              UpdateN(w, k).stoppedSegment
              == SelectedSegment(UpdateN(w, k).rotation, |w.participants|)
    ensures !w.spinning ==> UpdateN(w, k) == w
    decreases k
  {
    if k > 0 {
      if w.spinning {
        UpdateSpendsBudget(w);
        SpinTerminates(Update(w), k - 1);
        if !Update(w).spinning {
          AtRestStays(Update(w), k - 1);
        }
      } else {
        AtRestStays(w, k);
      }
    }
  }

  lemma {:induction false} AtRestStays(w: Wheel, k: nat)
    requires !w.spinning
    ensures UpdateN(w, k) == w
    decreases k
  {
    if k > 0 {
      AtRestStays(Update(w), k - 1);
    }
  }

  /** A freshly armed wheel rests within 10001 frames (speed below 20). */
  lemma SpinBudgetBounded(w: Wheel, u: UnitDraw)
    requires !w.spinning
    ensures SpinBudget(Spin(w, u)) <= 10001
  {
    var s := Spin(w, u).spinSpeed;
    FloorMonotone(s * 500.0, 10000.0);
  }

  /** A second `spin` while the first is running changes nothing. */
  lemma SpinWhileSpinningIgnored(w: Wheel, u: UnitDraw, u': UnitDraw)
    ensures Spin(Spin(w, u), u') == Spin(w, u)
  {
  }

  /** The winner is resolved once: after the stopping frame, further frames
      leave the wheel, and so its winner, unchanged. */
  lemma WinnerResolvedOnce(w: Wheel, k: nat)
    requires w.spinning && w.spinSpeed * Decay < StopThreshold
    ensures UpdateN(Update(w), k) == Update(w)
    ensures Update(w).stoppedSegment == WinnerNow(Update(w))
  {
    AtRestStays(Update(w), k);
  }

  /** Deleting the winner twice without a new stop removes nothing the second time. */
  lemma DeleteTwiceIsNoop(w: Wheel, d1: Draws, d2: Draws)
    requires DeleteStoppedSegment(w, d1).Some?
    ensures DeleteStoppedSegment(DeleteStoppedSegment(w, d1).value, d2)
            == DeleteStoppedSegment(w, d1)
  {
  }

  /** Removing a participant does not touch the resolved winner, so the index
      can go stale; deleting it afterwards removes nothing. */
  lemma StaleWinnerAfterRemove(w: Wheel, a: string, b: string, d1: Draws, d2: Draws)
    requires w.participants == [a, b] && w.stoppedSegment == Some(1)
    ensures RemoveParticipant(w, 0, d1).Some?
    ensures var w' := RemoveParticipant(w, 0, d1).value;
            && !WinnerInRange(w')
            && DeleteStoppedSegment(w', d2) == Some(w'.(stoppedSegment := None))
            && w'.participants == [b]
  {
    assert [a, b][..0] + [a, b][1..] == [b];
  }
}

=== FILE: wrappers.dfy ===
/** The optional value used throughout the model: Python's `None` versus a present value. */
module Wrappers {

  datatype Option<+T> = None | Some(value: T)
}
